=== FILE: README.md ===
# leveledCV card game — a Dafny model of the game controller

The landing page of leveledCV offers two cards. One of them is the winner, and
it is drawn once per browser and kept in local storage. Picking it redirects the
visitor to leveledcv.com. Picking the other opens a distraction video. The
first loss moves the game to `attempted` and sets the refresh count to 1. The
second reload after it brings the count to 3 and grants one `second-chance`.
A second loss ends the game in `game-over`. A modal announces each state after
`initial` the first time the visitor sees it.

All of this lives in the `Home` component of `src/app/page.tsx`. The model
takes it out of React and describes it with pure functions over one persisted
record:

- `GameModel` (`game_model.dfy`) holds the types:
  - the cards and the four game states, with their rank along
    `initial → attempted → second-chance → game-over`;
  - `IsInteractive`, the predicate that says when a click is evaluated;
  - the persisted `Store`, with one field per local-storage key;
  - the in-memory `Page`;
  - the fixed modal texts, copied exactly from the code.
- `LoadResolution` (`load_resolution.dfy`) models the load-time effect. `Load`
  assigns the winner if it is absent, defaults the state, and counts reloads in
  `attempted` until the one-time promotion.
- `NotificationGate` (`notification_gate.dfy`) models the notification effect.
  `Notify` shows a state's entry modal only when the stored last-shown state
  differs from it.
- `CardClick` (`card_click.dfy`) models the click handler:
  - `Click` returns the modal and the timed effects it schedules. These are a
    redirect after 2500 ms, the distraction window after 1500 ms, and a state
    write after 3000 ms.
  - `ApplyEffects` fires those timers on the page.
- `Lifetime` (`lifetime.dfy`) strings these together over the lifetime of a
  record: visits, each a load followed by clicks. It proves four things:
  - from any starting record, no state's entry modal is shown twice;
  - from any record whose last-shown key is empty, the state on screen after
    any visit has been announced (unless it is `initial`);
  - from a fresh record, the announcements are exactly `attempted`,
    `second-chance`, `game-over` up to the stored state, in that order. This
    includes a state entered and left within one visit, so each entry modal
    of a state the game passed through is shown exactly once;
  - the stored state never moves backwards;
  - `game-over` is permanent.

The random draw, the timers and the browser navigation are parameters or
values:
- `Math.random() > 0.5` becomes a `coin: bool` argument of `Load`.
- Each `setTimeout` becomes a `Timed(delayMs, effect)` value.
- Navigation and `window.open` become the `Redirect` and `OpenDistraction`
  effects. These change nothing in the record.

## Model

| member | source | states |
|---|---|---|
| GameModel.IsInteractive | src/app/page.tsx:164 | A click is evaluated exactly in the states other than `attempted` and `game-over`, that is in `initial` and `second-chance`. |
| CardClick.EveryModalHidesAfterThreeSeconds | src/app/page.tsx:83-89 | Every modal the controller raises, for any state and either card, whether on a click or on entering a state, is shown with a 3000 ms hide timer. |
| LoadResolution.Load | src/app/page.tsx:17-54 | The winner is kept when stored and otherwise drawn from the coin. A missing state becomes `initial`. A stored state is kept whenever the refresh guard does not fire, including `attempted` with the flag already set. Under the guard (`attempted` and no flag) the count goes up by exactly one; otherwise it is untouched. Promotion to `second-chance` happens exactly when the counted value reaches 3, and it raises the permanent flag. The page agrees with the record, the rank never drops, and the last-shown key is not touched. |
| LoadResolution.WinnerAssignedOnce | src/app/page.tsx:24-30 | Winner assignment is idempotent. A later load keeps the winner of an earlier one, and a stored winner does not depend on the draw. |
| LoadResolution.GrantedRecordIsFixed | src/app/page.tsx:38-51 | Once the second-chance flag is set on a settled record, a load changes nothing: neither the state nor the count. |
| LoadResolution.GameOverIsAbsorbingOnLoad | src/app/page.tsx:49-51 | A load keeps `game-over` and leaves the refresh count alone. |
| LoadResolution.SecondReloadAfterLossPromotes | src/app/page.tsx:38-48 | From `attempted` with count 1 and no flag, the first reload stays in `attempted` with count 2. The second reload promotes to `second-chance` and sets the flag. |
| LoadResolution.SettledLoadIsIdempotent | src/app/page.tsx:24-51 | When the refresh guard does not hold, loading twice gives the same page as loading once. |
| LoadResolution.GrantedRecordSurvivesReloads | src/app/page.tsx:38-51 | Any number of reloads of a settled record whose second-chance flag is set leave it exactly as it was. |
| LoadResolution.ReloadsInAttempted | src/app/page.tsx:38-48 | From `attempted` without the flag, n > 0 reloads raise the count one per reload until it reaches 3, then it stops. The result is min(count + n, max(count + 1, 3)). The record is promoted to `second-chance`, with the flag, exactly when count + n reaches 3; otherwise it stays in `attempted`. |
| NotificationGate.Notify | src/app/page.tsx:57-81 | Nothing is shown or stored while loading or in `initial`. For the other states, the entry modal is shown exactly when the last-shown key differs from the state, and the key then names the state. When nothing is shown, the key is left alone. |
| NotificationGate.NotifyIsIdempotent | src/app/page.tsx:57-81 | Re-running the gate for the same state on its own output shows nothing and changes nothing. |
| CardClick.Click | src/app/page.tsx:91-141 | A click schedules effects exactly when the state is interactive (`initial` or `second-chance`, line 164). In `game-over` and `attempted` it only shows the state's rejection modal. A win shows success and schedules only the redirect at 2500 ms. A loss shows the loss modal and schedules the distraction at 1500 ms, then a write at 3000 ms: `attempted` with count 1 from `initial`, `game-over` from `second-chance`. Only a loss writes, every write moves the rank by one, and the effects come in firing order. |
| CardClick.ApplyEffect | src/app/page.tsx:128-138 | A redirect or the distraction window leaves page and record alone. A state write sets the in-memory and the persisted state together. It sets the refresh count only when the write carries one (1 from `initial`) and otherwise keeps it. The winner, the flag and the last-shown key never move. |
| CardClick.ApplyEffects | src/app/page.tsx:126-139 | Firing timers keeps the page and the record in agreement. It never touches the winner, the flag or the last-shown key. Without a state write, nothing changes. |
| CardClick.ClickEffectsAdvance | src/app/page.tsx:108-139 | After all timers of a click have fired, a rejected or winning click leaves the page as it was. A loss moves it one state on. From `initial` the count restarts at 1. From `second-chance` the game ends with the count unchanged. |
| CardClick.GameOverIsAbsorbingOnClick | src/app/page.tsx:92-98 | In `game-over` either card shows only the game-over modal and leaves the page untouched. |
| Lifetime.ClickStep | src/app/page.tsx:57-81 | After a click's timers have fired, the gate runs only on a state change, because its effect depends on `[gameState, isLoading]` alone. A click that leaves the state as it was announces nothing. Anything announced is the state the click led to. The winner is unchanged. |
| Lifetime.ClickStepAnnouncesChange | src/app/page.tsx:57-81 | The other half of that dependency. On a consistent page, a click that moves the state to one the last-shown key does not name announces exactly that state and stores it in the key. |
| Lifetime.GameOverClicksChangeNothing | src/app/page.tsx:92-98 | Any number of clicks on a `game-over` page changes nothing and announces nothing. |
| Lifetime.EntryModalsAtMostOnce | src/app/page.tsx:57-81 | Over any sequence of visits and clicks, from any starting record, no state's entry modal is announced twice. The stored state's rank never decreases. |
| Lifetime.RunEndsAnnounced | src/app/page.tsx:57-81 | After at least one visit, from any record, the stored state is `initial` or the last-shown key names it. The gate runs after every load and after every state change, so the state on screen has always been announced. |
| Lifetime.EntryModalsExactlyOnce | src/app/page.tsx:57-81 | From a record whose last-shown key is empty, after at least one visit the stored state is `initial` or appears among the announced states, and no state is announced twice. |
| Lifetime.EntryModalsInOrder | src/app/page.tsx:17-141 | From a fresh record, after at least one visit, the announced states are exactly `attempted`, `second-chance`, `game-over` up to the stored state, in that order. The key names the stored state, or is empty in `initial`. So a `second-chance` granted at load and lost in the same visit is announced before `game-over`. |
| Lifetime.RunNeverRegresses | src/app/page.tsx:38-51 | Over any sequence of visits and clicks, the rank of the stored state never decreases. Load only promotes, and a loss only moves one state on. |
| Lifetime.GameOverIsPermanent | src/app/page.tsx:17-141 | A record in `game-over` stays there through any visits and clicks, and its refresh count never changes. Once its entry modal has been shown, nothing is announced again. |
| Lifetime.LosingFirstVisit | src/app/page.tsx:119-133 | The first visit to a fresh record with a losing click ends with the drawn winner stored, `attempted` with count 1, the flag clear, and `attempted` announced once. |
| Lifetime.FirstReloadCounts | src/app/page.tsx:38-48 | A visit without clicks from `attempted` at count 1 stores count 2, stays in `attempted`, and announces nothing. |
| Lifetime.SecondReloadPromotes | src/app/page.tsx:38-48 | A visit without clicks from `attempted` at count 2 stores `second-chance` with count 3 and the flag set, and announces "One Last Chance". |
| Lifetime.IdleReload | src/app/page.tsx:49-51 | A further visit without clicks to the granted `second-chance` record changes nothing and announces nothing. |
| Lifetime.TwoReloadsEarnSecondChance | src/app/page.tsx:38-81 | From `attempted` at count 1, two visits without clicks end exactly in `second-chance` with count 3, the flag set, the key naming `second-chance`, and only `second-chance` announced. A third such visit gives the same record and announces nothing more. |
| Lifetime.FreshRecordLosesThenEarnsSecondChance | src/app/page.tsx:17-141 | On a fresh record, losing stores `attempted` with count 1 and announces it. After the two reloads that follow, the record is exactly the drawn winner, `second-chance`, count 3, the flag set and the key naming `second-chance`, and the announcements are `attempted` then `second-chance`. A fourth visit changes and announces nothing. |
| Lifetime.WinInSecondChanceLeavesRecord | src/app/page.tsx:108-117 | Winning in `second-chance` leaves the record at `second-chance`. The win ends the game by leaving the page, not by a state write. |
| Lifetime.LossInSecondChanceEndsGame | src/app/page.tsx:134-139 | Losing in `second-chance` moves the game to `game-over` and announces it once. The only requirement is a consistent page whose last-shown key does not already name `game-over`. |

## Left out

- Rendering, the modal's title/description split styling, hover state and the
  animated background: these are presentation.
- `src/app/layout.tsx`: static metadata, fonts and navigation bar, with no
  logic.
- Local-storage string encoding:
  - The refresh count is a `nat`. An absent key reads as 0, as
    `parseInt(x || '0')` does.
  - The flag is a `bool`. Anything other than `"true"` reads as false.
  - Stored state and card strings are assumed to be valid values. A tampered
    or non-numeric entry is not modelled.
- The random draw is a boolean parameter, not a probability.
- The modal's hide timer is part of the `Modal` value (`durationMs` = 3000),
  not a scheduled effect, because hiding has no effect on the game.
- Real time, popup blocking, and whether a navigation or window open
  succeeds:
  - effects are values;
  - `OpenDistraction` does not model the window's size or its `focus()`
    call.
- Overlapping timers from rapid clicks and races between tabs. In `Lifetime`,
  all of a click's timers fire in delay order before the next click, and
  visits run one after another.
- Clicks while the page is still loading. The loading screen renders no
  cards, so a click always sees a resolved state and winning card.
- The gate runs after a click only when the in-memory state changed. This
  matches the effect's dependency on `gameState`. Running it after every
  click would give the same result, by `NotificationGate.NotifyIsIdempotent`.
- Early hiding of a modal. Each hide timer clears the modal flag without
  checking which modal is on screen, and no timer is cancelled. So a modal
  raised within 3 s of an earlier one disappears when the earlier timer
  fires. An example is the loss modal shortly after "One Last Chance". The
  model only records that every modal is shown with a 3000 ms hide timer.
- How a click reaches the handler. Outside `initial` and `second-chance`,
  both card buttons get `pointer-events-none` and `aria-disabled`
  (src/app/page.tsx:263-264 and 321-322). So a mouse click never reaches the
  handler there, and only keyboard activation raises the rejection modals
  that `Click` returns. The model treats every click alike.
- A local storage that throws. The load effect has no error handling, so
  such an error would end it before loading finishes. The model's `Store`
  never fails.
- The visitor leaving the page after a win is not modelled. A later visit is
  just another element of the visit sequence.

The modal texts name leveledcv.com. The click-time rejection texts for
`game-over` and `attempted` end with a period, unlike the entry-modal texts for
the same states.

=== FILE: card_click.dfy ===
/**
  The card click handler. It answers with the modal to show and the delayed
  effects it schedules; applying the scheduled state writes to the page is
  modelled separately, since they run only when their timer fires.
 */
module CardClick {
  import opened GameModel

  /** A side effect that a timer triggers. */
  datatype Effect =
    | Redirect(url: string)
    | OpenDistraction(url: string)
    | WriteState(state: GameState, refreshCount: Option<nat>)

  /** An effect together with its delay after the click. */
  datatype Timed = Timed(delayMs: nat, effect: Effect)

  /** What one click produces. */
  datatype Outcome = Outcome(modal: Modal, effects: seq<Timed>)

  const RedirectDelayMs: nat := 2500
  const DistractionDelayMs: nat := 1500
  const StateWriteDelayMs: nat := 3000

  const DestinationUrl: string := "https://leveledcv.com"
  const DistractionUrl: string :=
    "https://www.youtube.com/embed/dQw4w9WgXcQ?autoplay=1&controls=0&modestbranding=1"

  /** The effects are listed in the order their timers fire. */
  predicate InFiringOrder(effects: seq<Timed>)
  {
    forall i, j :: 0 <= i < j < |effects| ==> effects[i].delayMs <= effects[j].delayMs
  }

  /** Whether any effect writes to the persisted record. */
  predicate WritesState(effects: seq<Timed>)
  {
    exists i :: 0 <= i < |effects| && effects[i].effect.WriteState?
  }

  function Click(state: GameState, winning: Card, card: Card): (o: Outcome)
    // a card schedules anything exactly when the state is interactive
    ensures o.effects == [] <==> !IsInteractive(state)
    ensures !IsInteractive(state) ==> !WritesState(o.effects)
    // the rejections only explain themselves
    ensures state == GameOver ==> o.modal == GameOverClickModal
    ensures state == Attempted ==> o.modal == AlreadyPlayedClickModal
    // a win announces success and only navigates away, without writing state
    ensures IsInteractive(state) && card == winning
            ==> o.modal == SuccessModal && o.effects == [Timed(RedirectDelayMs, Redirect(DestinationUrl))]
    // a loss opens the distraction first and writes the next state last
    ensures IsInteractive(state) && card != winning
            ==> && o.modal == LossModal
                && |o.effects| == 2
                && o.effects[0] == Timed(DistractionDelayMs, OpenDistraction(DistractionUrl))
                && o.effects[1].delayMs == StateWriteDelayMs
    ensures state == Initial && card != winning ==> o.effects[1].effect == WriteState(Attempted, Some(1))
    ensures state == SecondChance && card != winning ==> o.effects[1].effect == WriteState(GameOver, None)
    // only a loss writes, and every write moves the state exactly one step on
    ensures WritesState(o.effects) ==> IsInteractive(state) && card != winning
    ensures forall i :: 0 <= i < |o.effects| && o.effects[i].effect.WriteState?
              ==> Rank(o.effects[i].effect.state) == Rank(state) + 1
    ensures InFiringOrder(o.effects)
  {
    if state == GameOver then
      Outcome(GameOverClickModal, [])
    else if state == Attempted then
      Outcome(AlreadyPlayedClickModal, [])
    else if card == winning then
      Outcome(SuccessModal, [Timed(RedirectDelayMs, Redirect(DestinationUrl))])
    else
      var distraction := Timed(DistractionDelayMs, OpenDistraction(DistractionUrl));
      var advance :=
        match state
        case Initial => [Timed(StateWriteDelayMs, WriteState(Attempted, Some(1)))]
        case SecondChance => [Timed(StateWriteDelayMs, WriteState(GameOver, None))]
        case _ => [];
      Outcome(LossModal, [distraction] + advance)
  }

  /**
    The effect of one timer on the page. Navigation and the distraction window
    leave the record alone; a state write sets the in-memory and the persisted
    state and, when given, the refresh count.
   */
  function ApplyEffect(p: Page, e: Effect): (q: Page)
    // navigation and the distraction window leave page and record alone
    ensures !e.WriteState? ==> q == p
    // a write sets the in-memory and the persisted state together
    ensures e.WriteState? ==> q.state == e.state && q.store.gameState == Some(e.state)
    // the count changes only when the write carries one
    ensures e.WriteState? && e.refreshCount.Some? ==> q.store.refreshCount == e.refreshCount.value
    ensures e.WriteState? && e.refreshCount.None? ==> q.store.refreshCount == p.store.refreshCount
    // nothing else in the record moves
    ensures q.winningCard == p.winningCard && q.store.winningCard == p.store.winningCard
    ensures q.store.secondChanceShown == p.store.secondChanceShown
    ensures q.store.lastModalState == p.store.lastModalState
  {
    match e
    case Redirect(_) => p
    case OpenDistraction(_) => p
    case WriteState(s, count) =>
      var n := if count.Some? then count.value else p.store.refreshCount;
      p.(state := s, store := p.store.(gameState := Some(s), refreshCount := n))
  }

  /** Fires the timers one after another, in the order given. */
  function ApplyEffects(p: Page, effects: seq<Timed>): (q: Page)
    // page and record stay in agreement, and the winner and flags are never touched
    ensures Consistent(p) ==> Consistent(q)
    ensures q.winningCard == p.winningCard && q.store.winningCard == p.store.winningCard
    ensures q.store.secondChanceShown == p.store.secondChanceShown
    ensures q.store.lastModalState == p.store.lastModalState
    // without a state write nothing changes
    ensures !WritesState(effects) ==> q == p
    decreases |effects|
  {
    if effects == [] then p
    else
      assert !WritesState(effects) ==> !effects[0].effect.WriteState?;
      assert !WritesState(effects) ==> !WritesState(effects[1..]) by {
        if WritesState(effects[1..]) {
          var i :| 0 <= i < |effects[1..]| && effects[1..][i].effect.WriteState?;
          assert effects[i + 1].effect.WriteState?;
        }
      }
      ApplyEffects(ApplyEffect(p, effects[0].effect), effects[1..])
  }

  /**
    Firing all of a click's timers on a consistent page: the rejected and the
    winning clicks leave it as it was, and a loss moves it one state on; from
    `initial` it also restarts the refresh count at 1.
   */
  lemma ClickEffectsAdvance(p: Page, card: Card)
    requires Consistent(p)
    ensures var q := ApplyEffects(p, Click(p.state, p.winningCard, card).effects);
      && Consistent(q)
      && (!IsInteractive(p.state) || card == p.winningCard ==> q == p)
      && (IsInteractive(p.state) && card != p.winningCard ==> Rank(q.state) == Rank(p.state) + 1)
      && (p.state == Initial && card != p.winningCard ==> q.state == Attempted && q.store.refreshCount == 1)
      && (p.state == SecondChance && card != p.winningCard
          ==> q.state == GameOver && q.store.refreshCount == p.store.refreshCount)
  {
    var o := Click(p.state, p.winningCard, card);
    if IsInteractive(p.state) && card != p.winningCard {
      var p1 := ApplyEffect(p, o.effects[0].effect);
      assert p1 == p;
      assert o.effects[1..] == [o.effects[1]];
      assert ApplyEffects(p, o.effects) == ApplyEffects(ApplyEffect(p1, o.effects[1].effect), []);
    }
  }

  /**
    Every modal the controller raises, on a click or on entering a state, is
    shown through the same helper and so carries the same 3000 ms hide timer.
   */
  lemma EveryModalHidesAfterThreeSeconds(state: GameState, winning: Card, card: Card)
    ensures Click(state, winning, card).modal.durationMs == ModalDurationMs
    ensures EntryModal(state).Some? ==> EntryModal(state).value.durationMs == ModalDurationMs
  {
  }

  /** `game-over` is absorbing under clicks: either card leaves the page untouched. */
  lemma GameOverIsAbsorbingOnClick(p: Page, card: Card)
    requires p.state == GameOver
    ensures Click(p.state, p.winningCard, card).modal == GameOverClickModal
    ensures ApplyEffects(p, Click(p.state, p.winningCard, card).effects) == p
  {
  }
}

=== FILE: game_model.dfy ===
/**
  The data the card game works on: the two cards, the four game states, the
  record persisted in the browser's local storage, the in-memory page state
  after a load, and the fixed modal messages.
 */
module GameModel {

  datatype Option<T> = None | Some(value: T)

  /** The two cards a visitor can choose. */
  datatype Card = Left | Right

  /** The game states, in the order the game moves through them. */
  datatype GameState = Initial | Attempted | SecondChance | GameOver

  /** Position of a state along initial -> attempted -> second-chance -> game-over. */
  function Rank(s: GameState): nat
  {
    match s
    case Initial => 0
    case Attempted => 1
    case SecondChance => 2
    case GameOver => 3
  }

  /**
    The states in which a card click is compared with the winning card: all
    but the two the click handler turns away.
   */
  predicate IsInteractive(s: GameState)
    ensures IsInteractive(s) <==> s != Attempted && s != GameOver
  {
    s == Initial || s == SecondChance
  }

  /**
    The persisted record, one field per local-storage key. An absent refresh
    count reads as 0 and an absent second-chance flag reads as false, so both
    are stored as plain values.
   */
  datatype Store = Store(
    winningCard: Option<Card>,
    gameState: Option<GameState>,
    refreshCount: nat,
    secondChanceShown: bool,
    lastModalState: Option<GameState>)

  /** The record of a browser that has never visited. */
  const EmptyStore: Store := Store(None, None, 0, false, None)

  /** Number of counted reloads in `attempted` that earns the second chance. */
  const SecondChanceThreshold: nat := 3

  /** The in-memory component state once loading has finished. */
  datatype Page = Page(store: Store, state: GameState, winningCard: Card)

  /** The in-memory state and winning card agree with what is persisted. */
  predicate Consistent(p: Page)
  {
    p.store.gameState == Some(p.state) && p.store.winningCard == Some(p.winningCard)
  }

  /** A modal on screen; it hides itself after `durationMs`. */
  datatype Modal = Modal(title: string, description: string, durationMs: nat)

  const ModalDurationMs: nat := 3000

  /** Every modal is shown through this one helper, with the same lifetime. */
  function TemporaryModal(title: string, description: string): (m: Modal)
    ensures m.title == title && m.description == description
    ensures m.durationMs == 3000
  {
    Modal(title, description, ModalDurationMs)
  }

  // Modals raised when a state is entered.

  const AttemptedEntryModal: Modal :=
    TemporaryModal("Nice Try. Already Played",
                   "You already made your choice. Try refreshing a few times for another chance")

  const SecondChanceEntryModal: Modal :=
    TemporaryModal("One Last Chance", "You're persistent. Choose wisely this time")

  const GameOverEntryModal: Modal :=
    TemporaryModal("Game Over. You Lost Twice",
                   "No more chances available. Visit leveledcv.com directly")

  /** The entry modal of a state; `initial` has none. */
  function EntryModal(s: GameState): Option<Modal>
  {
    match s
    case Initial => None
    case Attempted => Some(AttemptedEntryModal)
    case SecondChance => Some(SecondChanceEntryModal)
    case GameOver => Some(GameOverEntryModal)
  }

  // Modals raised by a click. The two rejection texts end with a period,
  // unlike the entry modals of the same states.

  const GameOverClickModal: Modal :=
    TemporaryModal("Game Over. You Lost Twice",
                   "No more chances available. Visit leveledcv.com directly.")

  const AlreadyPlayedClickModal: Modal :=
    TemporaryModal("Nice Try. Already Played",
                   "You already made your choice. Try refreshing a few times for another chance.")

  const SuccessModal: Modal :=
    TemporaryModal("Success! You Chose Wisely", "Redirecting you to your next step...")

  const LossModal: Modal :=
    TemporaryModal("Oops, Wrong Choice", "That path was not meant for you. Enjoy the music!")
}

=== FILE: lifetime.dfy ===
/**
  The lifetime of one persisted record: a sequence of visits, each a page load
  followed by card clicks. The notification gate runs once after loading and
  again whenever the in-memory state changes; each click's timers fire, in
  order, before the next click.
 */
module Lifetime {
  import opened GameModel
  import opened LoadResolution
  import opened NotificationGate
  import opened CardClick

  /** A page together with the states whose entry modal was shown, in order. */
  datatype Step = Step(page: Page, announced: seq<GameState>)

  /** One visit: the random draw its load would use, and the cards clicked. */
  datatype Visit = Visit(coin: bool, clicks: seq<Card>)

  /** The record after a sequence of visits, with every state announced on the way. */
  datatype Trace = Trace(store: Store, announced: seq<GameState>)

  /** Runs the gate for the current state and persists its last-shown key. */
  function Announce(p: Page): (r: Step)
    ensures r.page.state == p.state && r.page.winningCard == p.winningCard
    ensures r.announced == [] || r.announced == [p.state]
  {
    var g := Notify(false, p.state, p.store.lastModalState);
    Step(p.(store := p.store.(lastModalState := g.lastShown)),
         if g.modal.Some? then [p.state] else [])
  }

  /** One click with all of its timers fired; the gate reruns only on a state change. */
  function ClickStep(p: Page, card: Card): (r: Step)
    // the gate depends on the state only: no state change, no announcement
    ensures r.page.state == p.state ==> r.announced == []
    // anything announced is the state the click led to
    ensures r.announced == [] || r.announced == [r.page.state]
    ensures r.page.winningCard == p.winningCard
  {
    var q := ApplyEffects(p, Click(p.state, p.winningCard, card).effects);
    if q.state != p.state then Announce(q) else Step(q, [])
  }

  /**
    The other half of the gate's dependency on the state: a click that moves
    the state to one the last-shown key does not name announces it and
    stores it in the key.
   */
  lemma ClickStepAnnouncesChange(p: Page, card: Card)
    requires Consistent(p)
    ensures var r := ClickStep(p, card);
      r.page.state != p.state && p.store.lastModalState != Some(r.page.state)
      ==> r.announced == [r.page.state] && r.page.store.lastModalState == Some(r.page.state)
  {
    ClickEffectsAdvance(p, card);
  }

  function ClickAll(p: Page, cards: seq<Card>): Step
    decreases |cards|
  {
    if cards == [] then Step(p, [])
    else
      var first := ClickStep(p, cards[0]);
      var rest := ClickAll(first.page, cards[1..]);
      Step(rest.page, first.announced + rest.announced)
  }

  /** A page load, the gate once loading has finished, then the clicks. */
  function VisitStep(store: Store, v: Visit): Step
  {
    var loaded := Announce(Load(store, v.coin));
    var clicked := ClickAll(loaded.page, v.clicks);
    Step(clicked.page, loaded.announced + clicked.announced)
  }

  function Run(store: Store, visits: seq<Visit>): Trace
    decreases |visits|
  {
    if visits == [] then Trace(store, [])
    else
      var first := VisitStep(store, visits[0]);
      var rest := Run(first.page.store, visits[1..]);
      Trace(rest.store, first.announced + rest.announced)
  }

  ghost predicate Distinct(a: seq<GameState>)
  {
    forall i, j :: 0 <= i < j < |a| ==> a[i] != a[j]
  }

  /**
    The bookkeeping behind at-most-once: every state announced so far is at or
    behind the stored state, and if it is the stored state, the last-shown key
    still names it.
   */
  ghost predicate Tracks(store: Store, a: seq<GameState>)
  {
    forall k :: 0 <= k < |a| ==>
      && store.gameState.Some?
      && Rank(a[k]) <= Rank(store.gameState.value)
      && (a[k] == store.gameState.value ==> store.lastModalState == Some(a[k]))
  }

  /** Regrouping the announced list does not affect `Tracks` and `Distinct`. */
  lemma RegroupTracks(store: Store, a: seq<GameState>, x: seq<GameState>, y: seq<GameState>)
    requires Tracks(store, (a + x) + y) && Distinct((a + x) + y)
    ensures Tracks(store, a + (x + y)) && Distinct(a + (x + y))
  {
    assert (a + x) + y == a + (x + y);
  }

  /** Regrouping the announced list does not affect `KeyAnnounced`. */
  lemma RegroupKey(store: Store, a: seq<GameState>, x: seq<GameState>, y: seq<GameState>)
    requires KeyAnnounced(store, (a + x) + y)
    ensures KeyAnnounced(store, a + (x + y))
  {
    assert (a + x) + y == a + (x + y);
  }

  lemma RankInjective(s: GameState, t: GameState)
    requires Rank(s) == Rank(t)
    ensures s == t
  {
  }

  /** A move of the stored state that never goes back and keeps the key keeps `Tracks`. */
  lemma ForwardMoveKeepsTracks(before: Store, after: Store, a: seq<GameState>)
    requires Tracks(before, a)
    requires after.lastModalState == before.lastModalState
    requires after.gameState.Some?
    requires before.gameState.Some? ==> Rank(before.gameState.value) <= Rank(after.gameState.value)
    ensures Tracks(after, a)
  {
    forall k | 0 <= k < |a|
      ensures Rank(a[k]) <= Rank(after.gameState.value)
      ensures a[k] == after.gameState.value ==> after.lastModalState == Some(a[k])
    {
      if a[k] == after.gameState.value {
        RankInjective(before.gameState.value, after.gameState.value);
      }
    }
  }

  /** The gate never announces a state twice while `Tracks` holds. */
  lemma AnnounceKeepsTracks(p: Page, a: seq<GameState>)
    requires Consistent(p) && Tracks(p.store, a) && Distinct(a)
    ensures var r := Announce(p);
      Consistent(r.page) && r.page.store.gameState == p.store.gameState
      && Tracks(r.page.store, a + r.announced) && Distinct(a + r.announced)
      && r.page.store.refreshCount == p.store.refreshCount
      && r.page.store.secondChanceShown == p.store.secondChanceShown
  {
    var r := Announce(p);
    var b := a + r.announced;
    if r.announced != [] {
      assert r.announced == [p.state];
      assert p.store.lastModalState != Some(p.state);
      assert p.state !in a;
      forall i, j | 0 <= i < j < |b| ensures b[i] != b[j] {
        if j == |a| {
          assert b[i] == a[i];
        }
      }
      assert r.page.store.lastModalState == Some(p.state);
      forall k | 0 <= k < |b|
        ensures Rank(b[k]) <= Rank(p.state)
        ensures b[k] == p.state ==> r.page.store.lastModalState == Some(b[k])
      {
        if k < |a| {
          assert b[k] == a[k];
        }
      }
    } else {
      assert b == a;
    }
  }

  /** A click, with the gate rerun on a state change, keeps `Tracks` and `Distinct`. */
  lemma ClickStepKeepsTracks(p: Page, card: Card, a: seq<GameState>)
    requires Consistent(p) && Tracks(p.store, a) && Distinct(a)
    ensures var r := ClickStep(p, card);
      Consistent(r.page) && Tracks(r.page.store, a + r.announced) && Distinct(a + r.announced)
      && Rank(p.state) <= Rank(r.page.state)
  {
    var q := ApplyEffects(p, Click(p.state, p.winningCard, card).effects);
    ClickEffectsAdvance(p, card);
    ForwardMoveKeepsTracks(p.store, q.store, a);
    if q.state != p.state {
      AnnounceKeepsTracks(q, a);
    } else {
      assert a + [] == a;
    }
  }

  lemma {:induction false} ClickAllKeepsTracks(p: Page, cards: seq<Card>, a: seq<GameState>)
    requires Consistent(p) && Tracks(p.store, a) && Distinct(a)
    ensures Consistent(ClickAll(p, cards).page)
    ensures Tracks(ClickAll(p, cards).page.store, a + ClickAll(p, cards).announced)
    ensures Distinct(a + ClickAll(p, cards).announced)
    decreases |cards|
  {
    var r := ClickAll(p, cards);
    if cards == [] {
      assert a + r.announced == a;
    } else {
      var first := ClickStep(p, cards[0]);
      var rest := ClickAll(first.page, cards[1..]);
      assert r == Step(rest.page, first.announced + rest.announced);
      ClickStepKeepsTracks(p, cards[0], a);
      ClickAllKeepsTracks(first.page, cards[1..], a + first.announced);
      RegroupTracks(rest.page.store, a, first.announced, rest.announced);
    }
  }

  lemma {:induction false} ClickAllNeverRegresses(p: Page, cards: seq<Card>)
    requires Consistent(p)
    ensures Rank(p.state) <= Rank(ClickAll(p, cards).page.state)
    decreases |cards|
  {
    if cards != [] {
      var first := ClickStep(p, cards[0]);
      ClickStepKeepsTracks(p, cards[0], []);
      ClickAllNeverRegresses(first.page, cards[1..]);
    }
  }

  lemma VisitKeepsTracks(store: Store, v: Visit, a: seq<GameState>)
    requires Tracks(store, a) && Distinct(a)
    ensures Consistent(VisitStep(store, v).page)
    ensures Tracks(VisitStep(store, v).page.store, a + VisitStep(store, v).announced)
    ensures Distinct(a + VisitStep(store, v).announced)
    ensures store.gameState.Some? ==> Rank(store.gameState.value) <= Rank(VisitStep(store, v).page.state)
  {
    var p := Load(store, v.coin);
    var loaded := Announce(p);
    var clicked := ClickAll(loaded.page, v.clicks);
    var r := VisitStep(store, v);
    assert r == Step(clicked.page, loaded.announced + clicked.announced);
    ForwardMoveKeepsTracks(store, p.store, a);
    AnnounceKeepsTracks(p, a);
    ClickAllKeepsTracks(loaded.page, v.clicks, a + loaded.announced);
    ClickAllNeverRegresses(loaded.page, v.clicks);
    RegroupTracks(clicked.page.store, a, loaded.announced, clicked.announced);
  }

  lemma {:induction false} RunKeepsTracks(store: Store, visits: seq<Visit>, a: seq<GameState>)
    requires Tracks(store, a) && Distinct(a)
    ensures Tracks(Run(store, visits).store, a + Run(store, visits).announced)
    ensures Distinct(a + Run(store, visits).announced)
    decreases |visits|
  {
    var t := Run(store, visits);
    if visits == [] {
      assert a + t.announced == a;
    } else {
      var first := VisitStep(store, visits[0]);
      var rest := Run(first.page.store, visits[1..]);
      assert t == Trace(rest.store, first.announced + rest.announced);
      VisitKeepsTracks(store, visits[0], a);
      RunKeepsTracks(first.page.store, visits[1..], a + first.announced);
      RegroupTracks(rest.store, a, first.announced, rest.announced);
    }
  }

  /** The stored state never moves backwards over a lifetime. */
  lemma {:induction false} RunNeverRegresses(store: Store, visits: seq<Visit>)
    requires store.gameState.Some?
    ensures Run(store, visits).store.gameState.Some?
    ensures Rank(store.gameState.value) <= Rank(Run(store, visits).store.gameState.value)
    decreases |visits|
  {
    if visits != [] {
      var first := VisitStep(store, visits[0]);
      VisitKeepsTracks(store, visits[0], []);
      RunNeverRegresses(first.page.store, visits[1..]);
    }
  }

  /**
    Over the whole lifetime of a record, from any starting record, each state's
    entry modal is shown at most once, and the stored state never moves back.
   */
  lemma EntryModalsAtMostOnce(store: Store, visits: seq<Visit>)
    ensures var t := Run(store, visits);
      && (forall i, j :: 0 <= i < j < |t.announced| ==> t.announced[i] != t.announced[j])
      && (store.gameState.Some? ==>
            t.store.gameState.Some? && Rank(store.gameState.value) <= Rank(t.store.gameState.value))
  {
    RunKeepsTracks(store, visits, []);
    assert [] + Run(store, visits).announced == Run(store, visits).announced;
    if store.gameState.Some? {
      RunNeverRegresses(store, visits);
    }
  }

  /** Clicks on a `game-over` page change nothing and announce nothing. */
  lemma {:induction false} GameOverClicksChangeNothing(p: Page, cards: seq<Card>)
    requires p.state == GameOver
    ensures ClickAll(p, cards) == Step(p, [])
    decreases |cards|
  {
    if cards != [] {
      GameOverIsAbsorbingOnClick(p, cards[0]);
      assert ClickStep(p, cards[0]) == Step(p, []);
      GameOverClicksChangeNothing(p, cards[1..]);
    }
  }

  /**
    A record in `game-over` stays there through any number of visits and
    clicks, its refresh count never changes, and once its entry modal has been
    shown it is never shown again.
   */
  lemma {:induction false} GameOverIsPermanent(store: Store, visits: seq<Visit>)
    requires store.gameState == Some(GameOver)
    ensures Run(store, visits).store.gameState == Some(GameOver)
    ensures Run(store, visits).store.refreshCount == store.refreshCount
    ensures store.lastModalState == Some(GameOver) ==> Run(store, visits).announced == []
    decreases |visits|
  {
    if visits != [] {
      var loaded := Announce(Load(store, visits[0].coin));
      assert loaded.page.state == GameOver;
      GameOverClicksChangeNothing(loaded.page, visits[0].clicks);
      var first := VisitStep(store, visits[0]);
      assert first.page == loaded.page;
      GameOverIsPermanent(first.page.store, visits[1..]);
    }
  }

  /** The card that does not win. */
  function OtherCard(c: Card): (o: Card)
    ensures o != c
  {
    if c == Left then Right else Left
  }

  /** `Run` on a non-empty sequence: the first visit, then the rest. */
  lemma RunUnfold(store: Store, visits: seq<Visit>)
    requires visits != []
    ensures var first := VisitStep(store, visits[0]);
      var rest := Run(first.page.store, visits[1..]);
      Run(store, visits) == Trace(rest.store, first.announced + rest.announced)
  {
  }

  /** The first visit of a fresh record, losing: `attempted` with count 1, announced. */
  lemma LosingFirstVisit(coin: bool)
    ensures var r := VisitStep(EmptyStore, Visit(coin, [OtherCard(CoinCard(coin))]));
      && r.page.store == Store(Some(CoinCard(coin)), Some(Attempted), 1, false, Some(Attempted))
      && r.announced == [Attempted]
  {
    var loser := OtherCard(CoinCard(coin));
    var p0 := Load(EmptyStore, coin);
    assert p0 == Page(Store(Some(CoinCard(coin)), Some(Initial), 0, false, None), Initial, CoinCard(coin));
    assert Announce(p0) == Step(p0, []);
    ClickEffectsAdvance(p0, loser);
    var q := ApplyEffects(p0, Click(p0.state, p0.winningCard, loser).effects);
    assert ClickStep(p0, loser) == Announce(q);
    assert ClickAll(p0, [loser]) == Step(Announce(q).page, Announce(q).announced + ClickAll(Announce(q).page, []).announced);
  }

  /** A visit without clicks from `attempted` at count 1 counts to 2 and shows nothing. */
  lemma FirstReloadCounts(w: Card, coin: bool)
    ensures var r := VisitStep(Store(Some(w), Some(Attempted), 1, false, Some(Attempted)), Visit(coin, []));
      r.page.store == Store(Some(w), Some(Attempted), 2, false, Some(Attempted)) && r.announced == []
  {
  }

  /** The next such visit promotes to `second-chance` and announces it. */
  lemma SecondReloadPromotes(w: Card, coin: bool)
    ensures var r := VisitStep(Store(Some(w), Some(Attempted), 2, false, Some(Attempted)), Visit(coin, []));
      r.page.store == Store(Some(w), Some(SecondChance), 3, true, Some(SecondChance))
      && r.announced == [SecondChance]
  {
  }

  /** A further visit without clicks changes nothing and shows nothing. */
  lemma IdleReload(w: Card, coin: bool)
    ensures var s := Store(Some(w), Some(SecondChance), 3, true, Some(SecondChance));
      VisitStep(s, Visit(coin, [])) == Step(Page(s, SecondChance, w), [])
  {
  }

  /**
    From `attempted` at count 1, two reloads without clicks promote to
    `second-chance` and announce it; a third changes and announces nothing.
   */
  lemma TwoReloadsEarnSecondChance(w: Card, c2: bool, c3: bool, c4: bool)
    ensures var s1 := Store(Some(w), Some(Attempted), 1, false, Some(Attempted));
      var s3 := Store(Some(w), Some(SecondChance), 3, true, Some(SecondChance));
      && Run(s1, [Visit(c2, []), Visit(c3, [])]) == Trace(s3, [SecondChance])
      && Run(s1, [Visit(c2, []), Visit(c3, []), Visit(c4, [])]) == Trace(s3, [SecondChance])
  {
    var v2, v3, v4 := Visit(c2, []), Visit(c3, []), Visit(c4, []);
    var s1 := Store(Some(w), Some(Attempted), 1, false, Some(Attempted));
    var s2 := Store(Some(w), Some(Attempted), 2, false, Some(Attempted));
    var s3 := Store(Some(w), Some(SecondChance), 3, true, Some(SecondChance));
    FirstReloadCounts(w, c2);
    SecondReloadPromotes(w, c3);
    IdleReload(w, c4);
    RunUnfold(s3, [v4]);
    assert [v4][1..] == [];
    RunUnfold(s2, [v3, v4]);
    assert [v3, v4][1..] == [v4];
    RunUnfold(s1, [v2, v3, v4]);
    assert [v2, v3, v4][1..] == [v3, v4];
    RunUnfold(s2, [v3]);
    assert [v3][1..] == [];
    RunUnfold(s1, [v2, v3]);
    assert [v2, v3][1..] == [v3];
  }

  /**
    A fresh record, one losing click, then reloads: the loss stores `attempted`
    with count 1 and announces it; the second reload promotes to
    `second-chance` and announces that; a further reload shows nothing and
    counts nothing.
   */
  lemma FreshRecordLosesThenEarnsSecondChance(c1: bool, c2: bool, c3: bool, c4: bool)
    ensures var first := Run(EmptyStore, [Visit(c1, [OtherCard(CoinCard(c1))])]);
      && first.store.gameState == Some(Attempted)
      && first.store.refreshCount == 1
      && first.announced == [Attempted]
    ensures Run(EmptyStore, [Visit(c1, [OtherCard(CoinCard(c1))]), Visit(c2, []), Visit(c3, [])])
            == Trace(Store(Some(CoinCard(c1)), Some(SecondChance), 3, true, Some(SecondChance)),
                     [Attempted, SecondChance])
    ensures var t := Run(EmptyStore, [Visit(c1, [OtherCard(CoinCard(c1))]), Visit(c2, []), Visit(c3, []), Visit(c4, [])]);
      && t.store.gameState == Some(SecondChance)
      && t.store.refreshCount == 3
      && t.store.secondChanceShown
      && t.announced == [Attempted, SecondChance]
  {
    var w := CoinCard(c1);
    var v1, v2, v3, v4 := Visit(c1, [OtherCard(w)]), Visit(c2, []), Visit(c3, []), Visit(c4, []);
    LosingFirstVisit(c1);
    TwoReloadsEarnSecondChance(w, c2, c3, c4);
    RunUnfold(EmptyStore, [v1]);
    assert [v1][1..] == [];
    RunUnfold(EmptyStore, [v1, v2, v3]);
    assert [v1, v2, v3][1..] == [v2, v3];
    RunUnfold(EmptyStore, [v1, v2, v3, v4]);
    assert [v1, v2, v3, v4][1..] == [v2, v3, v4];
  }

  /** The state on screen has been announced: it is `initial`, or the last-shown key names it. */
  predicate Announced(p: Page)
  {
    p.state == Initial || p.store.lastModalState == Some(p.state)
  }

  /** The last-shown key only ever names a state that was announced in `a`. */
  ghost predicate KeyAnnounced(store: Store, a: seq<GameState>)
  {
    store.lastModalState.Some? ==> store.lastModalState.value in a
  }

  lemma AnnounceEstablishes(p: Page, a: seq<GameState>)
    requires KeyAnnounced(p.store, a)
    ensures Announced(Announce(p).page)
    ensures KeyAnnounced(Announce(p).page.store, a + Announce(p).announced)
  {
  }

  lemma ClickStepKeepsAnnounced(p: Page, card: Card, a: seq<GameState>)
    requires Consistent(p) && Announced(p) && KeyAnnounced(p.store, a)
    ensures Consistent(ClickStep(p, card).page)
    ensures Announced(ClickStep(p, card).page)
    ensures KeyAnnounced(ClickStep(p, card).page.store, a + ClickStep(p, card).announced)
  {
    var q := ApplyEffects(p, Click(p.state, p.winningCard, card).effects);
    ClickEffectsAdvance(p, card);
    if q.state != p.state {
      AnnounceEstablishes(q, a);
    } else {
      assert a + ClickStep(p, card).announced == a;
    }
  }

  lemma {:induction false} ClickAllKeepsAnnounced(p: Page, cards: seq<Card>, a: seq<GameState>)
    requires Consistent(p) && Announced(p) && KeyAnnounced(p.store, a)
    ensures Consistent(ClickAll(p, cards).page)
    ensures Announced(ClickAll(p, cards).page)
    ensures KeyAnnounced(ClickAll(p, cards).page.store, a + ClickAll(p, cards).announced)
    decreases |cards|
  {
    var r := ClickAll(p, cards);
    if cards == [] {
      assert a + r.announced == a;
    } else {
      var first := ClickStep(p, cards[0]);
      var rest := ClickAll(first.page, cards[1..]);
      assert r == Step(rest.page, first.announced + rest.announced);
      ClickStepKeepsAnnounced(p, cards[0], a);
      ClickAllKeepsAnnounced(first.page, cards[1..], a + first.announced);
      RegroupKey(rest.page.store, a, first.announced, rest.announced);
    }
  }

  /** Every visit, from any record, ends with the state on screen announced. */
  lemma VisitEndsAnnounced(store: Store, v: Visit, a: seq<GameState>)
    requires KeyAnnounced(store, a)
    ensures Consistent(VisitStep(store, v).page)
    ensures Announced(VisitStep(store, v).page)
    ensures KeyAnnounced(VisitStep(store, v).page.store, a + VisitStep(store, v).announced)
  {
    var p := Load(store, v.coin);
    var loaded := Announce(p);
    var clicked := ClickAll(loaded.page, v.clicks);
    var r := VisitStep(store, v);
    assert r == Step(clicked.page, loaded.announced + clicked.announced);
    AnnounceEstablishes(p, a);
    ClickAllKeepsAnnounced(loaded.page, v.clicks, a + loaded.announced);
    RegroupKey(clicked.page.store, a, loaded.announced, clicked.announced);
  }

  /** The last-shown key only names states listed in `a` or announced during the run. */
  lemma {:induction false} RunKeepsKeyAnnounced(store: Store, visits: seq<Visit>, a: seq<GameState>)
    requires KeyAnnounced(store, a)
    ensures KeyAnnounced(Run(store, visits).store, a + Run(store, visits).announced)
    decreases |visits|
  {
    var t := Run(store, visits);
    if visits == [] {
      assert a + t.announced == a;
    } else {
      var first := VisitStep(store, visits[0]);
      var rest := Run(first.page.store, visits[1..]);
      assert t == Trace(rest.store, first.announced + rest.announced);
      VisitEndsAnnounced(store, visits[0], a);
      RunKeepsKeyAnnounced(first.page.store, visits[1..], a + first.announced);
      RegroupKey(rest.store, a, first.announced, rest.announced);
    }
  }

  /**
    After at least one visit, from any record, the stored state is `initial`
    or the last-shown key names it.
   */
  lemma {:induction false} RunEndsAnnounced(store: Store, visits: seq<Visit>)
    requires visits != []
    ensures Run(store, visits).store.gameState.Some?
    ensures Run(store, visits).store.gameState == Some(Initial)
            || Run(store, visits).store.lastModalState == Run(store, visits).store.gameState
    decreases |visits|
  {
    var first := VisitStep(store, visits[0]);
    var rest := Run(first.page.store, visits[1..]);
    assert Run(store, visits).store == rest.store;
    if visits[1..] == [] {
      var a := if store.lastModalState.Some? then [store.lastModalState.value] else [];
      VisitEndsAnnounced(store, visits[0], a);
    } else {
      RunEndsAnnounced(first.page.store, visits[1..]);
    }
  }

  /**
    Exactly once: starting from a record whose entry modal key is still empty
    (a fresh record), after at least one visit the stored state is `initial`
    or appears among the announced states, and it appears there only once.
   */
  lemma EntryModalsExactlyOnce(store: Store, visits: seq<Visit>)
    requires store.lastModalState == None
    requires visits != []
    ensures var t := Run(store, visits);
      && t.store.gameState.Some?
      && (t.store.gameState.value == Initial || t.store.gameState.value in t.announced)
      && (forall i, j :: 0 <= i < j < |t.announced| ==> t.announced[i] != t.announced[j])
  {
    RunEndsAnnounced(store, visits);
    RunKeepsKeyAnnounced(store, visits, []);
    assert [] + Run(store, visits).announced == Run(store, visits).announced;
    EntryModalsAtMostOnce(store, visits);
  }

  /** The last-shown key once `s` has been announced; `initial` has no entry modal. */
  function KeyFor(s: GameState): Option<GameState>
  {
    if s == Initial then None else Some(s)
  }

  /** The entry modals shown on the way to `s`, in the order the game reaches them. */
  function AnnouncedUpTo(s: GameState): (a: seq<GameState>)
    ensures |a| == Rank(s)
    ensures forall k :: 0 <= k < |a| ==> Rank(a[k]) == k + 1
  {
    match s
    case Initial => []
    case Attempted => [Attempted]
    case SecondChance => [Attempted, SecondChance]
    case GameOver => [Attempted, SecondChance, GameOver]
  }

  /**
    The bookkeeping behind exactly-once on a fresh record: the key names the
    stored state (none in `initial` or before the first load), and the
    announced list is every state up to it, in order.
   */
  ghost predicate Settled(store: Store, a: seq<GameState>)
  {
    if store.gameState.None? then store.lastModalState == None && a == []
    else store.lastModalState == KeyFor(store.gameState.value) && a == AnnouncedUpTo(store.gameState.value)
  }

  /** A consistent page whose state is `t`, as last announced, or one step past it. */
  ghost predicate Behind(p: Page, t: GameState, a: seq<GameState>)
  {
    && Consistent(p)
    && p.store.lastModalState == KeyFor(t)
    && a == AnnouncedUpTo(t)
    && (p.state == t || Rank(p.state) == Rank(t) + 1)
  }

  /** Regrouping the announced list does not affect `Settled`. */
  lemma RegroupSettled(store: Store, a: seq<GameState>, x: seq<GameState>, y: seq<GameState>)
    requires Settled(store, (a + x) + y)
    ensures Settled(store, a + (x + y))
  {
    assert (a + x) + y == a + (x + y);
  }

  /** Running the gate on a page at most one step past the key settles it. */
  lemma AnnounceSettles(p: Page, t: GameState, a: seq<GameState>)
    requires Behind(p, t, a)
    ensures Consistent(Announce(p).page)
    ensures Settled(Announce(p).page.store, a + Announce(p).announced)
  {
    var r := Announce(p);
    if p.state == t {
      assert r.announced == [];
      assert a + r.announced == a;
    } else {
      assert r.announced == [p.state];
      assert AnnouncedUpTo(t) + [p.state] == AnnouncedUpTo(p.state);
    }
  }

  /** A click, with the gate rerun on a state change, keeps `Settled`. */
  lemma ClickStepKeepsSettled(p: Page, card: Card, a: seq<GameState>)
    requires Consistent(p) && Settled(p.store, a)
    ensures Consistent(ClickStep(p, card).page)
    ensures Settled(ClickStep(p, card).page.store, a + ClickStep(p, card).announced)
  {
    var q := ApplyEffects(p, Click(p.state, p.winningCard, card).effects);
    ClickEffectsAdvance(p, card);
    if q.state != p.state {
      AnnounceSettles(q, p.state, a);
    } else {
      assert a + ClickStep(p, card).announced == a;
    }
  }

  lemma {:induction false} ClickAllKeepsSettled(p: Page, cards: seq<Card>, a: seq<GameState>)
    requires Consistent(p) && Settled(p.store, a)
    ensures Consistent(ClickAll(p, cards).page)
    ensures Settled(ClickAll(p, cards).page.store, a + ClickAll(p, cards).announced)
    decreases |cards|
  {
    var r := ClickAll(p, cards);
    if cards == [] {
      assert a + r.announced == a;
    } else {
      var first := ClickStep(p, cards[0]);
      var rest := ClickAll(first.page, cards[1..]);
      assert r == Step(rest.page, first.announced + rest.announced);
      ClickStepKeepsSettled(p, cards[0], a);
      ClickAllKeepsSettled(first.page, cards[1..], a + first.announced);
      RegroupSettled(rest.page.store, a, first.announced, rest.announced);
    }
  }

  /** A load leaves the page as announced, or one step past it after a promotion. */
  lemma LoadIsBehind(store: Store, coin: bool, a: seq<GameState>)
    requires Settled(store, a)
    ensures Behind(Load(store, coin), SavedState(store), a)
  {
  }

  lemma VisitKeepsSettled(store: Store, v: Visit, a: seq<GameState>)
    requires Settled(store, a)
    ensures Settled(VisitStep(store, v).page.store, a + VisitStep(store, v).announced)
    ensures VisitStep(store, v).page.store.gameState.Some?
  {
    var p := Load(store, v.coin);
    var loaded := Announce(p);
    var clicked := ClickAll(loaded.page, v.clicks);
    var r := VisitStep(store, v);
    assert r == Step(clicked.page, loaded.announced + clicked.announced);
    LoadIsBehind(store, v.coin, a);
    AnnounceSettles(p, SavedState(store), a);
    ClickAllKeepsSettled(loaded.page, v.clicks, a + loaded.announced);
    RegroupSettled(clicked.page.store, a, loaded.announced, clicked.announced);
  }

  lemma {:induction false} RunKeepsSettled(store: Store, visits: seq<Visit>, a: seq<GameState>)
    requires Settled(store, a)
    ensures Settled(Run(store, visits).store, a + Run(store, visits).announced)
    ensures visits != [] ==> Run(store, visits).store.gameState.Some?
    decreases |visits|
  {
    var t := Run(store, visits);
    if visits == [] {
      assert a + t.announced == a;
    } else {
      var first := VisitStep(store, visits[0]);
      var rest := Run(first.page.store, visits[1..]);
      assert t == Trace(rest.store, first.announced + rest.announced);
      VisitKeepsSettled(store, visits[0], a);
      RunKeepsSettled(first.page.store, visits[1..], a + first.announced);
      RegroupSettled(rest.store, a, first.announced, rest.announced);
    }
  }

  /**
    From a fresh record, every state the game passes through is announced,
    including one entered and left within a single visit: after at least one
    visit the announcements are exactly `attempted`, `second-chance`,
    `game-over` up to the stored state, in that order, each once, and the key
    names the stored state unless it is `initial`.
   */
  lemma EntryModalsInOrder(visits: seq<Visit>)
    requires visits != []
    ensures var t := Run(EmptyStore, visits);
      && t.store.gameState.Some?
      && t.announced == AnnouncedUpTo(t.store.gameState.value)
      && t.store.lastModalState == KeyFor(t.store.gameState.value)
  {
    RunKeepsSettled(EmptyStore, visits, []);
    assert [] + Run(EmptyStore, visits).announced == Run(EmptyStore, visits).announced;
  }

  /**
    A winning click in `second-chance` leaves the record as it was: the win
    ends the game by leaving the page, not by a state write.
   */
  lemma WinInSecondChanceLeavesRecord(p: Page)
    requires Consistent(p) && p.state == SecondChance
    ensures ClickStep(p, p.winningCard) == Step(p, [])
  {
    ClickEffectsAdvance(p, p.winningCard);
  }

  /** A loss in `second-chance` ends the game and announces `game-over` once. */
  lemma LossInSecondChanceEndsGame(p: Page)
    requires Consistent(p) && p.state == SecondChance && p.store.lastModalState != Some(GameOver)
    ensures ClickStep(p, OtherCard(p.winningCard)).page.state == GameOver
    ensures ClickStep(p, OtherCard(p.winningCard)).announced == [GameOver]
  {
    ClickEffectsAdvance(p, OtherCard(p.winningCard));
  }
}

=== FILE: load_resolution.dfy ===
/**
  What happens to the persisted record when the page loads: the winning card
  is assigned once, a missing state becomes `initial`, and reloads while in
  `attempted` are counted until they earn the one-time second chance.
 */
module LoadResolution {
  import opened GameModel

  /** The random draw `Math.random() > 0.5` picks the left card when true. */
  function CoinCard(coin: bool): Card
  {
    if coin then Left else Right
  }

  /** The state the load works from: the stored one, `initial` when absent. */
  function SavedState(store: Store): GameState
  {
    if store.gameState.Some? then store.gameState.value else Initial
  }

  /** The guard under which a load counts as a refresh in `attempted`. */
  predicate CountsRefresh(store: Store)
  {
    SavedState(store) == Attempted && !store.secondChanceShown
  }

  /**
    Resolves the record on page load. `coin` stands for the random draw and is
    used only when no winning card is stored yet.
   */
  function Load(store: Store, coin: bool): (p: Page)
    // the page agrees with what was persisted
    ensures Consistent(p)
    // the winning card: kept when present, drawn from the coin when absent
    ensures store.winningCard.Some? ==> p.winningCard == store.winningCard.value
    ensures store.winningCard.None? ==> p.winningCard == CoinCard(coin)
    // a missing state starts the game; a stored state is kept unless the refresh guard fires
    ensures store.gameState.None? ==> p.state == Initial
    ensures store.gameState.Some? && !CountsRefresh(store) ==> p.state == store.gameState.value
    // refresh counting: exactly one more under the guard, untouched otherwise
    ensures CountsRefresh(store) ==> p.store.refreshCount == store.refreshCount + 1
    ensures !CountsRefresh(store) ==> p.store.refreshCount == store.refreshCount
    // promotion happens exactly when the counted refresh reaches the threshold
    ensures p.state == SecondChance && SavedState(store) != SecondChance
            <==> CountsRefresh(store) && store.refreshCount + 1 >= SecondChanceThreshold
    ensures CountsRefresh(store) && store.refreshCount + 1 < SecondChanceThreshold ==> p.state == Attempted
    // the flag is permanent and is raised only by the promotion
    ensures p.store.secondChanceShown
            <==> store.secondChanceShown || (CountsRefresh(store) && store.refreshCount + 1 >= SecondChanceThreshold)
    // the state never moves backwards, and the notification key is not touched
    ensures store.gameState.Some? ==> Rank(store.gameState.value) <= Rank(p.state)
    ensures p.store.lastModalState == store.lastModalState
  {
    var winner := if store.winningCard.Some? then store.winningCard.value else CoinCard(coin);
    var saved := SavedState(store);
    var settled := store.(winningCard := Some(winner), gameState := Some(saved));
    if saved == Attempted && !store.secondChanceShown then
      var count := store.refreshCount + 1;
      if count >= SecondChanceThreshold then
        Page(settled.(refreshCount := count, gameState := Some(SecondChance), secondChanceShown := true),
             SecondChance, winner)
      else
        Page(settled.(refreshCount := count), Attempted, winner)
    else
      Page(settled, saved, winner)
  }

  /** Once a winning card is stored, every later load keeps it, whatever the draw. */
  lemma WinnerAssignedOnce(store: Store, coin1: bool, coin2: bool)
    ensures Load(Load(store, coin1).store, coin2).winningCard == Load(store, coin1).winningCard
    ensures store.winningCard.Some? ==> Load(store, coin1).winningCard == Load(store, coin2).winningCard
  {
  }

  /**
    Once the second chance has been granted and the record is settled, loading
    changes nothing at all: neither state nor count moves again.
   */
  lemma GrantedRecordIsFixed(store: Store, coin: bool)
    requires store.secondChanceShown
    requires store.winningCard.Some? && store.gameState.Some?
    ensures Load(store, coin).store == store
    ensures Load(store, coin).state == store.gameState.value
  {
  }

  /** `game-over` survives every load with its count unchanged. */
  lemma GameOverIsAbsorbingOnLoad(store: Store, coin: bool)
    requires store.gameState == Some(GameOver)
    ensures Load(store, coin).state == GameOver
    ensures Load(store, coin).store.refreshCount == store.refreshCount
  {
  }

  /**
    After a loss from `initial` has stored `attempted` with count 1, the first
    reload keeps `attempted` at count 2 and the second one promotes.
   */
  lemma SecondReloadAfterLossPromotes(store: Store, coin1: bool, coin2: bool)
    requires store.gameState == Some(Attempted) && store.refreshCount == 1
    requires !store.secondChanceShown
    ensures Load(store, coin1).state == Attempted
    ensures Load(store, coin1).store.refreshCount == 2
    ensures Load(Load(store, coin1).store, coin2).state == SecondChance
    ensures Load(Load(store, coin1).store, coin2).store.secondChanceShown
  {
  }

  /** Reloading a settled record is idempotent unless the refresh counter is armed. */
  lemma SettledLoadIsIdempotent(store: Store, coin1: bool, coin2: bool)
    requires !CountsRefresh(store)
    ensures Load(Load(store, coin1).store, coin2) == Load(store, coin1)
  {
  }

  /** The record after one page load per draw in `coins`, with no clicks between. */
  function Reloads(store: Store, coins: seq<bool>): Store
    decreases |coins|
  {
    if coins == [] then store else Reloads(Load(store, coins[0]).store, coins[1..])
  }

  function Min(x: nat, y: nat): nat { if x <= y then x else y }
  function Max(x: nat, y: nat): nat { if x <= y then y else x }

  /** Reloads of a record with the second chance granted change nothing. */
  lemma {:induction false} GrantedRecordSurvivesReloads(store: Store, coins: seq<bool>)
    requires store.secondChanceShown && store.winningCard.Some? && store.gameState.Some?
    ensures Reloads(store, coins) == store
    decreases |coins|
  {
    if coins != [] {
      GrantedRecordIsFixed(store, coins[0]);
      GrantedRecordSurvivesReloads(store, coins[1..]);
    }
  }

  /**
    The refresh counter is bounded. From `attempted` without the flag, n > 0
    reloads count up one per reload until the count reaches 3, and then stop.
    The record is promoted, with the flag, exactly when the count plus n
    reaches 3.
   */
  lemma {:induction false} ReloadsInAttempted(store: Store, coins: seq<bool>)
    requires store.gameState == Some(Attempted) && !store.secondChanceShown
    requires |coins| > 0
    ensures Reloads(store, coins).refreshCount
            == Min(store.refreshCount + |coins|, Max(store.refreshCount + 1, SecondChanceThreshold))
    ensures Reloads(store, coins).gameState
            == Some(if store.refreshCount + |coins| >= SecondChanceThreshold then SecondChance else Attempted)
    ensures Reloads(store, coins).secondChanceShown <==> store.refreshCount + |coins| >= SecondChanceThreshold
    decreases |coins|
  {
    var next := Load(store, coins[0]).store;
    if |coins| == 1 {
      assert Reloads(store, coins) == Reloads(next, []);
    } else if store.refreshCount + 1 >= SecondChanceThreshold {
      GrantedRecordSurvivesReloads(next, coins[1..]);
    } else {
      ReloadsInAttempted(next, coins[1..]);
    }
  }
}

=== FILE: notification_gate.dfy ===
/**
  The notification gate: each time the game state changes (and once after
  loading), the entry modal of the current state is shown unless the stored
  last-shown state already names it.
 */
module NotificationGate {
  import opened GameModel

  /** What the gate shows and the last-shown key it leaves behind. */
  datatype Gate = Gate(modal: Option<Modal>, lastShown: Option<GameState>)

  function Notify(isLoading: bool, state: GameState, lastShown: Option<GameState>): (g: Gate)
    // nothing is shown or stored while loading or in `initial`
    ensures isLoading || state == Initial ==> g == Gate(None, lastShown)
    // after loading, a non-initial state is announced exactly when it differs from the key
    ensures !isLoading && state != Initial ==> (g.modal.Some? <==> lastShown != Some(state))
    // what is shown is the state's own entry modal, and the key then names that state
    ensures g.modal.Some? ==> g.modal == EntryModal(state) && g.lastShown == Some(state)
    // when nothing is shown the key is left alone
    ensures g.modal.None? ==> g.lastShown == lastShown
  {
    if isLoading then Gate(None, lastShown)
    else
      match state
      case Initial => Gate(None, lastShown)
      case Attempted =>
        if lastShown != Some(Attempted) then Gate(Some(AttemptedEntryModal), Some(Attempted))
        else Gate(None, lastShown)
      case SecondChance =>
        if lastShown != Some(SecondChance) then Gate(Some(SecondChanceEntryModal), Some(SecondChance))
        else Gate(None, lastShown)
      case GameOver =>
        if lastShown != Some(GameOver) then Gate(Some(GameOverEntryModal), Some(GameOver))
        else Gate(None, lastShown)
  }

  /** Running the gate again on its own output for the same state shows nothing. */
  lemma NotifyIsIdempotent(isLoading: bool, state: GameState, lastShown: Option<GameState>)
    ensures Notify(isLoading, state, Notify(isLoading, state, lastShown).lastShown)
            == Gate(None, Notify(isLoading, state, lastShown).lastShown)
  {
  }
}
